=== FILE: README.md ===
# Scratch-space layout of UHoudiniAssetComponent

A Houdini Digital Asset exposes a different number of parameters with every
cook. UHoudiniAssetComponent shows them in Unreal's details panel by making
new RTTI: it creates one `UProperty` per asset parameter and patches each
property's offset. The host's offset field is a signed 32-bit byte offset
from the start of the object. The property values themselves live in a 64k
buffer carried inline in every component (`ScratchSpaceBuffer`, sized by
`HOUDINIENGINE_ASSET_SCRATCHSPACE_SIZE`).

This project models the arithmetic of that layout:

- **Alignment** (`alignment.dfy`). `ComputeOffsetAlignmentBoundary<T>(Offset)` aligns the
  absolute address `this + Offset` up to `ALIGNOF(T)` with the engine's
  `Align`. `Align` is the mask form `(p + a - 1) & ~(a - 1)` and is only
  correct for power-of-two `a`. `ClearLowBits` writes the mask out over
  naturals and is proved equal to the arithmetic round-down. `AlignUp` is
  proved aligned, never below its input, and padded by less than one
  alignment. It is also the least such address, unique, idempotent and
  monotone. Against an aligned base the absolute and relative round-ups
  agree.
- **The bump cursor** (`scratch_space.dfy`, `property_layout.dfy`). Each of
  CreatePropertyInt, ...Float, ...Toggle and ...Color takes the cursor as
  `uint32& Offset`. The model takes each one to claim an aligned slice of
  `Count * sizeof(T)` bytes, with `Count` counting whole elements of `T`, and
  to return the patched offset and the advanced cursor. That is `Claim`. `LayoutFrom` (recursive) and `LayoutProperties` (the loop) lay
  out a whole parameter list from the start of the buffer. If a claim would
  run past the buffer, the layout fails with `ScratchSpaceExhausted`; it
  never writes past the end.
- **Layout lemmas** (`layout_lemmas.dfy`):
  - what fits and what is refused;
  - greedy first-fit is optimal among in-order placements;
  - appending parameters never moves the earlier ones;
  - the offsets do not depend on the component's address, when that
    address is 4-aligned. This matters because the patched offsets belong
    to the class and so are shared by every instance.
- **Change set** (`change_tracking.dfy`). `ChangedProperties` is a set, so
  recording the same edited property twice leaves one entry.
- **Geometry state** (`geometry_state.dfy`). This is the five-valued
  `HoudiniAssetComponentGeometryState::Type`. It comes with the
  correspondence to the integer the C++ field stores.

Offsets in the model are the ones the host stores: they are measured from
the start of the component (line 230 adds `Offset` to `this`), not from the
start of the buffer. A `Region` records three things: the component's
address `base`, the buffer's offset `start` inside the component, and its
`capacity`. The real buffer holds 64k (`ScratchSpaceSize`). The lemmas hold
for any capacity, and the examples use 64 and 16 bytes.

Element layouts assumed by the model (the header shows only the pointer
types the CreateProperty* functions read values from, not the types they
store):

| kind | C++ element | size | alignment |
|---|---|---|---|
| Int | `int32` | 4 | 4 |
| Float | `float` | 4 | 4 |
| Toggle | `bool` | 1 | 1 |
| Color | four-float linear colour | 16 | 4 |

## Model

| member | source | states |
|---|---|---|
| Alignment.AlignUp | Source/HoudiniEngine/Classes/HoudiniAssetComponent.h:226-231 | The boundary is a multiple of the alignment, is never below `this + Offset`, and the padding it inserts is less than the alignment |
| Alignment.ClearLowBitsRoundsDown | Source/HoudiniEngine/Classes/HoudiniAssetComponent.h:230 | For a power-of-two alignment, masking with `~(align - 1)` is rounding down to a multiple of the alignment |
| Alignment.AlignUpIsLeast | Source/HoudiniEngine/Classes/HoudiniAssetComponent.h:230 | No aligned address at or above `this + Offset` lies below the boundary |
| Alignment.AlignUpUnique | Source/HoudiniEngine/Classes/HoudiniAssetComponent.h:230 | Any aligned address within one alignment above the input is the boundary |
| Alignment.AlignUpFixesAligned | Source/HoudiniEngine/Classes/HoudiniAssetComponent.h:230 | Aligning leaves an address unchanged if and only if it is already aligned |
| Alignment.AlignUpIdempotent | Source/HoudiniEngine/Classes/HoudiniAssetComponent.h:230 | Aligning twice gives the same boundary as aligning once |
| Alignment.AlignUpMonotone | Source/HoudiniEngine/Classes/HoudiniAssetComponent.h:230 | A later cursor never gets an earlier boundary |
| Alignment.AlignUpRelative | Source/HoudiniEngine/Classes/HoudiniAssetComponent.h:226-231 | When `this` is aligned, aligning the absolute address and aligning the relative offset give the same offset |
| ScratchSpace.ElementAlign | Source/HoudiniEngine/Classes/HoudiniAssetComponent.h:169-172 | Each property kind's alignment is a power of two (the only case `Align` handles) and at most its element size |
| ScratchSpace.ElementSize | Source/HoudiniEngine/Classes/HoudiniAssetComponent.h:169-172 | Every element a CreateProperty* call stores occupies at least one byte, so each claimed slice is non-empty |
| ScratchSpace.BoundaryOffset | Source/HoudiniEngine/Classes/HoudiniAssetComponent.h:226-231 | The boundary offset from `this` puts `this + offset` on the type's alignment, is not before the cursor, and pads by less than one alignment |
| ScratchSpace.BoundaryIsFirstFit | Source/HoudiniEngine/Classes/HoudiniAssetComponent.h:226-231 | No slot before the alignment boundary at the cursor can hold the slice |
| ScratchSpace.Claim | Source/HoudiniEngine/Classes/HoudiniAssetComponent.h:166-172 | A claim either yields a slice inside the buffer that is aligned, sized `Count * sizeof(T)`, starts at the earliest possible slot, and has an offset that fits int32, with the cursor moved past it, at most 2^31 and so a valid `uint32`; or it fails with InvalidElementCount when Count < 1, or with ScratchSpaceExhausted exactly when no slot exists |
| PropertyLayout.LayoutFrom | Source/HoudiniEngine/Classes/HoudiniAssetComponent.h:169-172 | A successful layout has one slice per parameter. Its cursor advances by at least the parameters' total size and at most that plus the worst-case padding, and stays inside the buffer. InvalidElementCount is reported only if some count is below 1 |
| PropertyLayout.LayoutFromWellPlaced | Source/HoudiniEngine/Classes/HoudiniAssetComponent.h:166-172 | Every slice of a successful layout lies wholly in the buffer, is aligned, has the right size and an int32 offset; the slices are in parameter order, do not overlap, and all end before the final cursor |
| PropertyLayout.LayoutProperties | Source/HoudiniEngine/Classes/HoudiniAssetComponent.h:169-172 | The cursor loop, started at the buffer, computes the recursive layout; on success the slices are well placed, and with valid counts the only failure is ScratchSpaceExhausted |
| LayoutLemmas.LayoutCapacity | Source/HoudiniEngine/Classes/HoudiniAssetComponent.h:218-222 | A list whose sizes plus worst-case padding fit the buffer is accepted; a list whose sizes alone exceed the room left is refused |
| LayoutLemmas.LayoutIsFirstFit | Source/HoudiniEngine/Classes/HoudiniAssetComponent.h:169-172 | If any in-order, aligned, disjoint placement inside the buffer exists, the layout succeeds and places each slice no later; so a refusal means no placement exists |
| LayoutLemmas.LayoutPrefixStable | Source/HoudiniEngine/Classes/HoudiniAssetComponent.h:169-172 | Appending parameters leaves the slices of the earlier parameters unchanged |
| LayoutLemmas.ClaimIndependentOfBase | Source/HoudiniEngine/Classes/HoudiniAssetComponent.h:226-231 | In a 4-aligned component a claim lands where it would in a component at address 0 |
| LayoutLemmas.LayoutIndependentOfBase | Source/HoudiniEngine/Classes/HoudiniAssetComponent.h:25-28 | The class-wide patched offsets are the same for every 4-aligned component instance |
| LayoutExamples.SampleFitsIn64Bytes | Source/HoudiniEngine/Classes/HoudiniAssetComponent.h:169-172 | In any 4-aligned component, an int, a colour and a three-float array in 64 bytes land at buffer offsets 0, 4 and 20 and use 32 bytes |
| LayoutExamples.SampleExhausts16Bytes | Source/HoudiniEngine/Classes/HoudiniAssetComponent.h:218-222 | The same list in 16 bytes is refused with ScratchSpaceExhausted |
| ChangeTracking.MarkChanged | Source/HoudiniEngine/Classes/HoudiniAssetComponent.h:195-196 | The edited property is pending afterwards and nothing else is added; the set grows by one exactly when the property was not yet pending |
| ChangeTracking.RecordEdits | Source/HoudiniEngine/Classes/HoudiniAssetComponent.h:121 | After a run of edits of generated properties, the pending properties are exactly those pending before plus those edited, and there are no more of them than edits plus prior entries |
| ChangeTracking.Drain | Source/HoudiniEngine/Classes/HoudiniAssetComponent.h:174-175 | No contract of its own: it hands the pending set to the recook and leaves an empty set. DrainSeparatesCooks relates it to RecordEdits |
| ChangeTracking.MarkChangedIdempotent | Source/HoudiniEngine/Classes/HoudiniAssetComponent.h:196 | Recording a property twice is recording it once |
| ChangeTracking.RecordEditsRepeat | Source/HoudiniEngine/Classes/HoudiniAssetComponent.h:196 | Repeating a run of edits adds nothing |
| ChangeTracking.DrainSeparatesCooks | Source/HoudiniEngine/Classes/HoudiniAssetComponent.h:174-196 | Taking the pending set for a recook yields every property pending or edited before it, and afterwards exactly the properties edited since are pending |
| ChangeTracking.MarkTwiceThenDrain | Source/HoudiniEngine/Classes/HoudiniAssetComponent.h:174-196 | Marking one property twice on a clean component and taking the pending set yields exactly that property, one entry |
| HoudiniGeometryState.Ordinal | Source/HoudiniEngine/Classes/HoudiniAssetComponent.h:73-84 | Each state is stored as one of the integers 0 to 4 |
| HoudiniGeometryState.FromOrdinal | Source/HoudiniEngine/Classes/HoudiniAssetComponent.h:73-84 | An integer denotes a state if and only if it is 0 to 4, and then the state it denotes stores back as that integer |
| HoudiniGeometryState.OrdinalRoundTrip | Source/HoudiniEngine/Classes/HoudiniAssetComponent.h:213-214 | The field's stored value reads back as the state written and no other |
| HoudiniGeometryState.ExactlyFiveStates | Source/HoudiniEngine/Classes/HoudiniAssetComponent.h:73-84 | The valid field values are exactly None, UseDefaultGeometry, UsePreviewGeometry, WaitForAssetInstantiation and WaitForAssetCooking |

## Left out

- The RTTI patching itself is not modelled: ReplaceClassInformation, ReplaceClassProperties, RemoveClassProperties, ReplaceClassObject and ReplacePropertyOffset. These functions edit Unreal's `UClass`/`UProperty` chains, and their bodies are in a .cpp that is not part of this model. The layout stops at the offset each property would be patched with.
- The values written into the scratch space are not modelled: the int, float, toggle and colour payloads, and the HAPI calls that fetch them. The colour struct metadata (`ScriptStructColor`) is also left out. Only sizes, alignments and offsets are modelled.
- The geometry-state transitions are in the .cpp, which is not part of this model. Only the state type is modelled.
- Engine plumbing is not modelled: ticking and tick registration, OnRegister/OnUnregister, component create/destroy hooks, CreateSceneProxy, GetNumMaterials, SetHoudiniAsset, SetNative, OnRep_HoudiniAsset, Serialize, and Get/ApplyComponentInstanceData.
- Mesh triangles, bounds and CalcBounds are left out because they are floating-point geometry. CriticalSectionTriangles is left out because it is concurrency.
- ScratchSpaceMarker is not modelled. The buffer's offset inside the component is a parameter (`Region.start`) instead of following from the class layout.
- HOUDINIENGINE_ASSET_SCRATCHSPACE_SIZE is set in the plugin's Build.cs, which is not part of this model. The value 64k comes from the class comment (lines 39-41).
- ScratchSpace.ElementSize: the sizes and alignments of all four kinds are assumptions, not read from the header. The header shows only the pointer types values are read from (`const int32*`, `const float*`, `const int32* bValue`, `const float*`). The stored types are in the .cpp, which is not part of this model. Int is taken as `int32` (4/4), Float as `float` (4/4), Toggle as a one-byte `bool` (1/1), and Color as a four-float linear colour (16/4). If Color were instead stored as a 4-byte `FColor`, the layouts in `LayoutExamples` would change; for example, Scale would sit at buffer offset 8 instead of 20.
- ScratchSpace.Claim: a count below 1 is refused with InvalidElementCount. This is a modelling choice: the header takes `int Count` and shows no check.
- ScratchSpace.Claim: `offset <= Int32Max` rests on `Region.Valid`. For the real component, that means ScratchSpaceBuffer ends within the first 2^31 bytes of the object, which holds when `sizeof(UHoudiniAssetComponent) <= 2^31`. The header cannot show this, so `Region.Valid` is a precondition of `Claim` and of every layout lemma.
- PropertyLayout.LayoutFrom: the first failing parameter rejects the whole list, and no partial layout is produced. This is a modelling choice: ReplaceClassProperties (line 157) returns `bool`, but its body is not part of this model, so whether it skips a bad parameter or rejects the whole list cannot be read from the header.
- The capacity check is not visible. The header shows no bound on the cursor, and the .cpp is not part of this model. The model refuses a claim that would pass the buffer's end rather than assume the original checks.
- ChangeTracking.RecordEdits: the body of PostEditChangeProperty (line 121) is not shown, so the model assumes that each edit of a generated parameter property adds that property to `ChangedProperties`. Which edits reach the set is not modelled. For example, `HoudiniAsset` (line 93) is also editable in the details panel, but it is not a generated parameter and is changed through SetHoudiniAsset. The model's edits are only edits of generated properties.
- SetChangedParameterValues is modelled only by its effect on the change set: `ChangeTracking.Drain` hands over the pending properties and clears the set. That it clears `ChangedProperties` is an assumption: the header declares the function without a body. Pushing the new values to the asset goes through HAPI and is left out.
- The model never reports UnsupportedParameterType, because the property kind is a closed datatype with four cases.
- Alignment.AlignUp: addresses are unbounded naturals, so a 64-bit wrap-around of `this + Offset + ALIGNOF(T) - 1` is not modelled. The component's address plus its size never approaches 2^64.
- ScratchSpace.Claim: `Count * sizeof(T)` and the cursor addition are computed without C++ integer wrap-around. The contract instead proves that every accepted cursor is at most 2^31, so below 2^32, and every accepted offset is at most `Int32Max`. So neither the `uint32` cursor nor the `int32` offset wraps on an accepted claim.
- ScratchSpace.Claim: the slice size `Count * ElementSize(kind)` is an assumption: the bodies of the CreateProperty* functions are not part of this model, so what `Count` counts cannot be read from the header. The model takes `Count` to count whole elements of `T`. For Color in particular, CreatePropertyColor (line 172) takes `int Count, const float* Value`, the same pointer type as CreatePropertyFloat (line 170); the model takes `Count` as the number of colours, not the number of float components.
- ScratchSpace.Claim: requires the cursor to be at or past the start of the buffer, which is where the cursor starts for a rebuild.

=== FILE: alignment.dfy ===
/**
 * Address alignment as used by UHoudiniAssetComponent::ComputeOffsetAlignmentBoundary:
 * the engine's `Align(Ptr, Alignment)` rounds an address up to a power-of-two
 * boundary by adding `Alignment - 1` and masking with `~(Alignment - 1)`.
 * Addresses are naturals; the mask is written out bit by bit (ClearLowBits)
 * and proved to be the arithmetic round-down, from which the properties of
 * the round-up follow.
 */
module Alignment {

  /** 1, 2, 4, 8, ...: the only alignments the mask form handles. */
  predicate IsPowerOfTwo(n: nat)
    decreases n
  {
    n == 1 || (n >= 2 && n % 2 == 0 && IsPowerOfTwo(n / 2))
  }

  /** `addr` lies on an `align`-byte boundary. */
  predicate IsAligned(addr: nat, align: nat)
  {
    align > 0 && addr % align == 0
  }

  /** `x & ~(align - 1)` for a power-of-two `align`: one low bit of `x` is
      dropped for every halving of `align`. */
  function ClearLowBits(x: nat, align: nat): nat
    requires IsPowerOfTwo(align)
    decreases align
  {
    if align == 1 then x else 2 * ClearLowBits(x / 2, align / 2)
  }

  /** The engine's `Align`: round `addr` up to the next multiple of `align`. */
  function AlignUp(addr: nat, align: nat): (r: nat)
    requires IsPowerOfTwo(align)
    ensures IsAligned(r, align)
    ensures addr <= r
    ensures r - addr < align
  {
    var y := addr + align - 1;
    ClearLowBitsRoundsDown(y, align);
    MultipleIsAligned(y / align, align);
    ClearLowBits(y, align)
  }

  // ---------------------------------------------------------------------
  // Arithmetic helpers

  /** Division with remainder is unique. */
  lemma DivModUnique(x: nat, d: nat, q: nat, r: nat)
    requires d > 0 && x == d * q + r && r < d
    ensures x / d == q && x % d == r
  {
    var q' := x / d;
    var r' := x % d;
    assert d * q' + r' == d * q + r;
    if q' < q {
      assert d * (q' + 1) == d * q' + d;
      MulMonotone(d, q' + 1, q);
    } else if q < q' {
      assert d * (q + 1) == d * q + d;
      MulMonotone(d, q + 1, q');
    }
  }

  lemma MulMonotone(d: nat, a: nat, b: nat)
    requires a <= b
    ensures d * a <= d * b
  {
  }

  lemma MulCancel(d: nat, x: nat, y: nat)
    requires d * x < d * y
    ensures x < y
  {
    if y <= x {
      MulMonotone(d, y, x);
    }
  }

  /** Every multiple of `align` is aligned. */
  lemma MultipleIsAligned(k: nat, align: nat)
    requires align > 0
    ensures IsAligned(k * align, align)
  {
    DivModUnique(k * align, align, k, 0);
  }

  /** Taking the remainder modulo `2 * h` is taking the low bit, then the
      remainder of the rest modulo `h`. */
  lemma ModOfDouble(x: nat, h: nat)
    requires h > 0
    ensures x % (2 * h) == 2 * ((x / 2) % h) + x % 2
  {
    var q := x / 2;
    var k := q / h;
    var s := q % h;
    assert x == 2 * (h * k + s) + x % 2;
    assert x == (2 * h) * k + (2 * s + x % 2);
    DivModUnique(x, 2 * h, k, 2 * s + x % 2);
  }

  /** The mask form is the arithmetic round-down to a multiple of `align`. */
  lemma {:induction false} ClearLowBitsRoundsDown(x: nat, align: nat)
    requires IsPowerOfTwo(align)
    ensures ClearLowBits(x, align) == x - x % align
    ensures ClearLowBits(x, align) == (x / align) * align
    decreases align
  {
    if align == 1 {
      assert x % 1 == 0;
      assert x / 1 == x;
    } else {
      var h := align / 2;
      ClearLowBitsRoundsDown(x / 2, h);
      ModOfDouble(x, h);
      assert align == 2 * h;
      assert x - x % align == (x / align) * align;
    }
  }

  /** Two aligned addresses less than one alignment apart (in this order)
      are ordered: an aligned `a` below `b + align` is at most `b`. */
  lemma AlignedNotAbove(a: nat, b: nat, align: nat)
    requires IsAligned(a, align) && IsAligned(b, align)
    requires a < b + align
    ensures a <= b
  {
    var ka := a / align;
    var kb := b / align;
    assert a == align * ka;
    assert b == align * kb;
    assert align * (kb + 1) == b + align;
    MulCancel(align, ka, kb + 1);
    MulMonotone(align, ka, kb);
  }

  /** The sum of two aligned addresses is aligned. */
  lemma AlignedSum(a: nat, b: nat, align: nat)
    requires IsAligned(a, align) && IsAligned(b, align)
    ensures IsAligned(a + b, align)
  {
    var ka := a / align;
    var kb := b / align;
    assert a + b == (ka + kb) * align;
    MultipleIsAligned(ka + kb, align);
  }

  // ---------------------------------------------------------------------
  // Properties of AlignUp

  /** AlignUp returns the least aligned address at or above `addr`. */
  lemma AlignUpIsLeast(addr: nat, align: nat, m: nat)
    requires IsPowerOfTwo(align)
    requires IsAligned(m, align) && addr <= m
    ensures AlignUp(addr, align) <= m
  {
    AlignedNotAbove(AlignUp(addr, align), m, align);
  }

  /** Any aligned address within one alignment above `addr` is AlignUp(addr). */
  lemma AlignUpUnique(addr: nat, align: nat, m: nat)
    requires IsPowerOfTwo(align)
    requires IsAligned(m, align) && addr <= m < addr + align
    ensures m == AlignUp(addr, align)
  {
    var r := AlignUp(addr, align);
    AlignUpIsLeast(addr, align, m);
    AlignedNotAbove(m, r, align);
  }

  /** An aligned address is left where it is. */
  lemma AlignUpFixesAligned(addr: nat, align: nat)
    requires IsPowerOfTwo(align)
    ensures AlignUp(addr, align) == addr <==> IsAligned(addr, align)
  {
    if IsAligned(addr, align) {
      AlignUpUnique(addr, align, addr);
    }
  }

  /** Aligning twice is aligning once. */
  lemma AlignUpIdempotent(addr: nat, align: nat)
    requires IsPowerOfTwo(align)
    ensures AlignUp(AlignUp(addr, align), align) == AlignUp(addr, align)
  {
    AlignUpFixesAligned(AlignUp(addr, align), align);
  }

  /** Alignment preserves the order of addresses. */
  lemma AlignUpMonotone(a: nat, b: nat, align: nat)
    requires IsPowerOfTwo(align) && a <= b
    ensures AlignUp(a, align) <= AlignUp(b, align)
  {
    AlignUpIsLeast(a, align, AlignUp(b, align));
  }

  /** Against an aligned base the absolute and the relative round-up agree:
      AlignUp(base + offset) - base == AlignUp(offset). When `base` is not
      aligned they may differ, which is why the helper aligns the absolute
      address `this + Offset`. */
  lemma AlignUpRelative(base: nat, offset: nat, align: nat)
    requires IsPowerOfTwo(align) && IsAligned(base, align)
    ensures AlignUp(base + offset, align) == base + AlignUp(offset, align)
  {
    var r := AlignUp(offset, align);
    AlignedSum(base, r, align);
    AlignUpUnique(base + offset, align, base + r);
  }
}

=== FILE: change_tracking.dfy ===
/**
 * ChangedProperties: the set of generated properties edited in the details
 * panel since the last cook. Being a set, recording a property that is
 * already pending changes nothing. Properties are identified by a type
 * parameter standing for `UProperty*`.
 */
module ChangeTracking {

  /** Record one edited generated property, as PostEditChangeProperty is
      assumed to do; edits of other properties are not modelled. */
  function MarkChanged<P>(changed: set<P>, p: P): (r: set<P>)
    ensures p in r && changed <= r
    ensures r - changed <= {p}
    ensures |r| == if p in changed then |changed| else |changed| + 1
  {
    changed + {p}
  }

  /** Record a run of edits, one after another. */
  function RecordEdits<P(!new)>(changed: set<P>, edits: seq<P>): (r: set<P>)
    ensures forall q :: q in r <==> q in changed || q in edits
    ensures |r| <= |changed| + |edits|
    decreases |edits|
  {
    if edits == [] then changed
    else RecordEdits(MarkChanged(changed, edits[0]), edits[1..])
  }

  /** The pending set handed to SetChangedParameterValues and the set left behind. */
  datatype Drained<P> = Drained(pending: set<P>, remaining: set<P>)

  /** Take every pending change for the recook and start afresh. */
  function Drain<P>(changed: set<P>): Drained<P>
  {
    Drained(changed, {})
  }

  /** Draining separates two cooks: the recook receives every property
      pending or edited before the drain, and afterwards exactly the
      properties edited since are pending. */
  lemma DrainSeparatesCooks<P(!new)>(changed: set<P>, before: seq<P>, after: seq<P>)
    ensures var d := Drain(RecordEdits(changed, before));
      && (forall q :: q in d.pending <==> q in changed || q in before)
      && (forall q :: q in RecordEdits(d.remaining, after) <==> q in after)
  {
  }

  /** Recording a property twice is recording it once. */
  lemma MarkChangedIdempotent<P>(changed: set<P>, p: P)
    ensures MarkChanged(MarkChanged(changed, p), p) == MarkChanged(changed, p)
  {
  }

  /** Repeating a run of edits records nothing new. */
  lemma RecordEditsRepeat<P(!new)>(changed: set<P>, edits: seq<P>)
    ensures RecordEdits(changed, edits + edits) == RecordEdits(changed, edits)
  {
    var twice := RecordEdits(changed, edits + edits);
    var once := RecordEdits(changed, edits);
    forall q
      ensures q in twice <==> q in once
    {
      assert q in edits + edits <==> q in edits;
    }
  }

  /** Marking the same property twice on a clean component and draining
      yields a change set of exactly that one property. */
  lemma MarkTwiceThenDrain<P(!new)>(p: P)
    ensures Drain(RecordEdits({}, [p, p])).pending == {p}
    ensures |Drain(RecordEdits({}, [p, p])).pending| == 1
  {
    var r := RecordEdits({}, [p, p]);
    assert forall q :: q in r <==> q == p;
    assert r == {p};
  }
}

=== FILE: geometry_state.dfy ===
/**
 * HoudiniAssetComponentGeometryState::Type, the enum that tracks which
 * geometry the component currently shows. The C++ field holds the enum's
 * underlying integer; the datatype is its five values, and the ordinal
 * functions are the correspondence between the two.
 */
module HoudiniGeometryState {
  import Outcomes

  datatype GeometryState =
    | None
    | UseDefaultGeometry
    | UsePreviewGeometry
    | WaitForAssetInstantiation
    | WaitForAssetCooking

  /** The enumerator's integer value, in declaration order from 0. */
  function Ordinal(s: GeometryState): (n: nat)
    ensures n < 5
  {
    match s
    case None => 0
    case UseDefaultGeometry => 1
    case UsePreviewGeometry => 2
    case WaitForAssetInstantiation => 3
    case WaitForAssetCooking => 4
  }

  /** The state an integer field value denotes, if any. */
  function FromOrdinal(n: int): (r: Outcomes.Option<GeometryState>)
    ensures r.Some? <==> 0 <= n < 5
    ensures r.Some? ==> Ordinal(r.value) == n
  {
    if n == 0 then Outcomes.Some(None)
    else if n == 1 then Outcomes.Some(UseDefaultGeometry)
    else if n == 2 then Outcomes.Some(UsePreviewGeometry)
    else if n == 3 then Outcomes.Some(WaitForAssetInstantiation)
    else if n == 4 then Outcomes.Some(WaitForAssetCooking)
    else Outcomes.None
  }

  /** Every state is stored as an integer that reads back as that state and no other. */
  lemma OrdinalRoundTrip(s: GeometryState, t: GeometryState)
    ensures FromOrdinal(Ordinal(s)) == Outcomes.Some(s)
    ensures Ordinal(s) == Ordinal(t) ==> s == t
  {
  }

  /** The five enumerators are exactly the values of the field. */
  lemma ExactlyFiveStates()
    ensures (set n | 0 <= n < 5 :: FromOrdinal(n).value) ==
      {None, UseDefaultGeometry, UsePreviewGeometry, WaitForAssetInstantiation, WaitForAssetCooking}
  {
    var all := set n | 0 <= n < 5 :: FromOrdinal(n).value;
    assert FromOrdinal(0).value in all;
    assert FromOrdinal(1).value in all;
    assert FromOrdinal(2).value in all;
    assert FromOrdinal(3).value in all;
    assert FromOrdinal(4).value in all;
  }
}

=== FILE: layout_examples.dfy ===
/**
 * Two concrete layouts: a component at any 4-aligned address whose scratch
 * buffer starts 0x100 bytes in, receiving an int `Count`, a colour `Tint`
 * and a three-float `Scale`.
 */
module LayoutExamples {
  import opened Outcomes
  import opened Alignment
  import opened ScratchSpace
  import opened PropertyLayout
  import LayoutLemmas

  /** In a 4-aligned component a claim at a 4-aligned cursor adds no padding. */
  lemma ClaimAtAligned(region: Region, cursor: nat, kind: PropertyKind, count: nat)
    requires region.Valid() && region.start <= cursor && count >= 1
    requires IsAligned(region.base, 4) && IsAligned(cursor, 4)
    ensures Claim(region, cursor, kind, count) ==
      if cursor + SliceSize(kind, count) <= region.End()
      then Success(Claimed(Slice(cursor, SliceSize(kind, count)), cursor + SliceSize(kind, count)))
      else Failure(ScratchSpaceExhausted)
  {
    AlignedSum(region.base, cursor, 4);
    LayoutLemmas.ElementAlignDividesMax(region.base + cursor, kind);
    AlignUpFixesAligned(region.base + cursor, ElementAlign(kind));
  }

  function SampleParameters(): seq<Parameter>
  {
    [Parameter("Count", Int, 1), Parameter("Tint", Color, 1), Parameter("Scale", Float, 3)]
  }

  /** The last parameter on its own, from buffer offset 20. */
  lemma SampleTailLayout(region: Region)
    requires IsAligned(region.base, 4) && region.start == 0x100 && region.capacity == 64
    ensures LayoutFrom(region, 0x114, SampleParameters()[2..]) == Success(Layout([Slice(0x114, 12)], 0x120))
  {
    var last := SampleParameters()[2..];
    ClaimAtAligned(region, 0x114, Float, 3);
    assert last[0] == Parameter("Scale", Float, 3) && last[1..] == [];
    LayoutFromStep(region, 0x114, last);
    assert LayoutFrom(region, 0x120, last[1..]) == Success(Layout([], 0x120));
    assert [Slice(0x114, 12)] + [] == [Slice(0x114, 12)];
  }

  /** The last two parameters, from buffer offset 4. */
  lemma SampleMiddleLayout(region: Region)
    requires IsAligned(region.base, 4) && region.start == 0x100 && region.capacity == 64
    ensures LayoutFrom(region, 0x104, SampleParameters()[1..])
      == Success(Layout([Slice(0x104, 16), Slice(0x114, 12)], 0x120))
  {
    assert [Slice(0x104, 16)] + [Slice(0x114, 12)] == [Slice(0x104, 16), Slice(0x114, 12)];
    var middle := SampleParameters()[1..];
    var rest := LayoutFrom(region, 0x114, middle[1..]);
    assert rest == Success(Layout([Slice(0x114, 12)], 0x120)) by {
      assert middle[1..] == SampleParameters()[2..];
      SampleTailLayout(region);
    }
    assert LayoutFrom(region, 0x104, middle) == Prepend([Slice(0x104, 16)], rest) by {
      ClaimAtAligned(region, 0x104, Color, 1);
      assert middle[0] == Parameter("Tint", Color, 1);
      LayoutFromStep(region, 0x104, middle);
    }
  }

  /** With 64 bytes of scratch space the three parameters land at buffer
      offsets 0, 4 and 20 and use 32 bytes. */
  lemma SampleFitsIn64Bytes(region: Region)
    requires IsAligned(region.base, 4) && region.start == 0x100 && region.capacity == 64
    ensures LayoutFrom(region, 0x100, SampleParameters())
      == Success(Layout([Slice(0x100, 4), Slice(0x104, 16), Slice(0x114, 12)], 0x120))
  {
    assert [Slice(0x100, 4)] + [Slice(0x104, 16), Slice(0x114, 12)]
      == [Slice(0x100, 4), Slice(0x104, 16), Slice(0x114, 12)];
    var ps := SampleParameters();
    var rest := LayoutFrom(region, 0x104, ps[1..]);
    assert rest == Success(Layout([Slice(0x104, 16), Slice(0x114, 12)], 0x120)) by {
      SampleMiddleLayout(region);
    }
    assert LayoutFrom(region, 0x100, ps) == Prepend([Slice(0x100, 4)], rest) by {
      ClaimAtAligned(region, 0x100, Int, 1);
      assert ps[0] == Parameter("Count", Int, 1);
      LayoutFromStep(region, 0x100, ps);
    }
  }

  /** With 16 bytes the colour no longer fits and the layout is refused. */
  lemma SampleExhausts16Bytes(region: Region)
    requires IsAligned(region.base, 4) && region.start == 0x100 && region.capacity == 16
    ensures LayoutFrom(region, 0x100, SampleParameters()) == Failure(ScratchSpaceExhausted)
  {
    var ps := SampleParameters();
    assert LayoutFrom(region, 0x104, ps[1..]) == Failure(ScratchSpaceExhausted) by {
      ClaimAtAligned(region, 0x104, Color, 1);
      assert ps[1..][0] == Parameter("Tint", Color, 1);
      LayoutFromStep(region, 0x104, ps[1..]);
    }
    assert LayoutFrom(region, 0x100, ps) == Prepend([Slice(0x100, 4)], LayoutFrom(region, 0x104, ps[1..])) by {
      ClaimAtAligned(region, 0x100, Int, 1);
      assert ps[0] == Parameter("Count", Int, 1);
      LayoutFromStep(region, 0x100, ps);
    }
  }
}

=== FILE: layout_lemmas.dfy ===
/**
 * Properties of the scratch-space layout that relate several calls:
 * when a parameter list fits, that appending parameters never moves the
 * earlier ones, and that the patched offsets do not depend on where the
 * component happens to live in memory.
 */
module LayoutLemmas {
  import opened Outcomes
  import opened Alignment
  import opened ScratchSpace
  import opened PropertyLayout

  /** A list fits when the buffer has room for every slice plus the worst-case
      padding; it is rejected when the slices alone exceed the room left. */
  lemma {:induction false} LayoutCapacity(region: Region, cursor: nat, params: seq<Parameter>)
    requires region.Valid() && region.start <= cursor
    ensures (CountsValid(params) && cursor + TotalDemand(params) + MaxPadding(params) <= region.End())
      ==> LayoutFrom(region, cursor, params).Success?
    ensures (params != [] && cursor + TotalDemand(params) > region.End())
      ==> LayoutFrom(region, cursor, params).Failure?
    decreases |params|
  {
    if params != [] && CountsValid(params) && cursor + TotalDemand(params) + MaxPadding(params) <= region.End() {
      var p := params[0];
      var c := Claim(region, cursor, p.kind, p.count);
      var offset := BoundaryOffset(region, cursor, p.kind);
      assert offset - cursor < ElementAlign(p.kind);
      assert offset + SliceSize(p.kind, p.count) <= region.End();
      assert CanPlace(region, cursor, p.kind, p.count, offset);
      assert c.Success?;
      assert CountsValid(params[1..]) by {
        forall i | 0 <= i < |params[1..]| ensures params[1..][i].count >= 1 {
          assert params[1..][i] == params[i + 1];
        }
      }
      LayoutCapacity(region, c.value.cursor, params[1..]);
    }
  }

  /** Appending parameters never moves the slices of the earlier ones, so
      an asset whose parameter list only grows keeps its property offsets. */
  lemma {:induction false} LayoutPrefixStable(region: Region, cursor: nat, ps: seq<Parameter>, qs: seq<Parameter>)
    requires region.Valid() && region.start <= cursor
    requires LayoutFrom(region, cursor, ps + qs).Success?
    ensures LayoutFrom(region, cursor, ps).Success?
    ensures LayoutFrom(region, cursor, ps).value.slices == LayoutFrom(region, cursor, ps + qs).value.slices[..|ps|]
    decreases |ps|
  {
    if ps == [] {
      assert ps + qs == qs;
      assert LayoutFrom(region, cursor, ps).value.slices == [];
    } else {
      var all := ps + qs;
      var c := Claim(region, cursor, ps[0].kind, ps[0].count);
      assert c.Success? && LayoutFrom(region, cursor, all)
        == Prepend([c.value.slice], LayoutFrom(region, c.value.cursor, ps[1..] + qs)) by {
        assert all[0] == ps[0] && all[1..] == ps[1..] + qs;
        LayoutFromStep(region, cursor, all);
      }
      assert LayoutFrom(region, cursor, ps)
        == Prepend([c.value.slice], LayoutFrom(region, c.value.cursor, ps[1..])) by {
        LayoutFromStep(region, cursor, ps);
      }
      LayoutPrefixStable(region, c.value.cursor, ps[1..], qs);
      ConsTake(c.value.slice, LayoutFrom(region, c.value.cursor, ps[1..] + qs).value.slices, |ps[1..]|);
    }
  }

  lemma ConsTake(s: Slice, t: seq<Slice>, n: nat)
    requires n <= |t|
    ensures ([s] + t)[..n + 1] == [s] + t[..n]
  {
  }

  /** The cursor places greedily, and greedy is enough: whenever some
      in-order, aligned, disjoint placement of the parameters inside the
      buffer exists, the layout succeeds and each of its slices starts no
      later than the corresponding slice of that placement. So a layout is
      refused only when no in-order placement exists at all. */
  lemma {:induction false} LayoutIsFirstFit(region: Region, cursor: nat, params: seq<Parameter>, slices: seq<Slice>)
    requires region.Valid() && region.start <= cursor
    requires WellPlaced(region, cursor, params, slices)
    ensures LayoutFrom(region, cursor, params).Success?
    ensures forall i :: 0 <= i < |params| ==>
      LayoutFrom(region, cursor, params).value.slices[i].offset <= slices[i].offset
    decreases |params|
  {
    if params != [] {
      var p := params[0];
      assert PlacedFor(region, cursor, p, slices[0]);
      assert CanPlace(region, cursor, p.kind, p.count, slices[0].offset);
      var c := Claim(region, cursor, p.kind, p.count);
      assert c.Success?;
      var next := c.value.cursor;
      var tailP := params[1..];
      var tailS := slices[1..];
      assert WellPlaced(region, next, tailP, tailS) by {
        forall i | 0 <= i < |tailS|
          ensures PlacedFor(region, next, tailP[i], tailS[i])
        {
          assert tailS[i] == slices[i + 1] && tailP[i] == params[i + 1];
          assert PlacedFor(region, cursor, params[i + 1], slices[i + 1]);
          assert slices[0].End() <= slices[i + 1].offset;
        }
        forall i, j | 0 <= i < j < |tailS|
          ensures tailS[i].End() <= tailS[j].offset
        {
          assert tailS[i] == slices[i + 1] && tailS[j] == slices[j + 1];
        }
      }
      LayoutIsFirstFit(region, next, tailP, tailS);
      LayoutFromStep(region, cursor, params);
      var l := LayoutFrom(region, cursor, params).value;
      var tail := LayoutFrom(region, next, tailP).value;
      assert l.slices == [c.value.slice] + tail.slices;
      forall i | 0 <= i < |params|
        ensures l.slices[i].offset <= slices[i].offset
      {
        if i > 0 {
          assert l.slices[i] == tail.slices[i - 1];
        }
      }
    }
  }

  /** Every element alignment divides 4. */
  const MaxElementAlign: nat := 4

  lemma ElementAlignDividesMax(addr: nat, kind: PropertyKind)
    requires IsAligned(addr, MaxElementAlign)
    ensures IsAligned(addr, ElementAlign(kind))
  {
  }

  /** A claim made in a component whose address is 4-aligned lands at the
      same offset as in a component at address 0. */
  lemma ClaimIndependentOfBase(region: Region, cursor: nat, kind: PropertyKind, count: int)
    requires region.Valid() && region.start <= cursor
    requires IsAligned(region.base, MaxElementAlign)
    ensures Claim(region, cursor, kind, count) == Claim(region.(base := 0), cursor, kind, count)
  {
    ElementAlignDividesMax(region.base, kind);
    AlignUpRelative(region.base, cursor, ElementAlign(kind));
    assert BoundaryOffset(region, cursor, kind) == BoundaryOffset(region.(base := 0), cursor, kind);
  }

  /** The property offsets are patched into the class, shared by every
      instance, but computed by aligning one instance's `this + Offset`.
      For components at 4-aligned addresses the layout is the same for all
      of them: it equals the layout of a component at address 0. */
  lemma {:induction false} LayoutIndependentOfBase(region: Region, cursor: nat, params: seq<Parameter>)
    requires region.Valid() && region.start <= cursor
    requires IsAligned(region.base, MaxElementAlign)
    ensures LayoutFrom(region, cursor, params) == LayoutFrom(region.(base := 0), cursor, params)
    decreases |params|
  {
    if params != [] {
      var zero := region.(base := 0);
      LayoutFromStep(region, cursor, params);
      LayoutFromStep(zero, cursor, params);
      ClaimIndependentOfBase(region, cursor, params[0].kind, params[0].count);
      var c := Claim(region, cursor, params[0].kind, params[0].count);
      if c.Success? {
        LayoutIndependentOfBase(region, c.value.cursor, params[1..]);
      }
    }
  }
}

=== FILE: outcomes.dfy ===
/** Failure-carrying results shared by the layout model. */
module Outcomes {

  /** A claim or a layout: the placement, or why the parameters could not be placed. */
  datatype Result<+T, +E> = Success(value: T) | Failure(error: E)

  /** A stored geometry-state integer read back: the state it denotes, if any. */
  datatype Option<+T> = None | Some(value: T)
}

=== FILE: property_layout.dfy ===
/**
 * Laying out a whole parameter list: the CreateProperty* calls are made one
 * parameter after another, threading the same `uint32& Offset` cursor, which
 * starts at the scratch buffer. LayoutFrom is the recursive reference
 * definition; LayoutProperties is the cursor loop.
 */
module PropertyLayout {
  import opened Outcomes
  import opened Alignment
  import opened ScratchSpace

  /** The slices of a layout, one per parameter in order, and the final cursor. */
  datatype Layout = Layout(slices: seq<Slice>, cursor: nat)

  /** `s` is a correct home for parameter `p` claimed at or after `cursor`. */
  predicate PlacedFor(region: Region, cursor: nat, p: Parameter, s: Slice)
  {
    && p.count >= 1
    && cursor <= s.offset
    && region.Holds(s)
    && s.size == SliceSize(p.kind, p.count)
    && IsAligned(region.base + s.offset, ElementAlign(p.kind))
    && s.offset <= Int32Max
  }

  /** One slice per parameter, each correctly placed, in order and disjoint. */
  predicate WellPlaced(region: Region, cursor: nat, params: seq<Parameter>, slices: seq<Slice>)
  {
    && |slices| == |params|
    && (forall i :: 0 <= i < |slices| ==> PlacedFor(region, cursor, params[i], slices[i]))
    && (forall i, j :: 0 <= i < j < |slices| ==> slices[i].End() <= slices[j].offset)
  }

  /** Bytes a parameter needs, padding aside. */
  function Demand(p: Parameter): nat
  {
    if p.count >= 1 then SliceSize(p.kind, p.count) else 0
  }

  function TotalDemand(params: seq<Parameter>): nat
  {
    if params == [] then 0 else Demand(params[0]) + TotalDemand(params[1..])
  }

  /** The most padding alignment can insert in front of each parameter. */
  function MaxPadding(params: seq<Parameter>): nat
  {
    if params == [] then 0 else (ElementAlign(params[0].kind) - 1) + MaxPadding(params[1..])
  }

  /** Every parameter has at least one element. */
  predicate CountsValid(params: seq<Parameter>)
  {
    forall i :: 0 <= i < |params| ==> params[i].count >= 1
  }

  /** Prefix `slices` to a layout result. */
  function Prepend(slices: seq<Slice>, r: Result<Layout, LayoutError>): Result<Layout, LayoutError>
  {
    match r
    case Failure(e) => Failure(e)
    case Success(l) => Success(Layout(slices + l.slices, l.cursor))
  }

  lemma PrependEmpty(r: Result<Layout, LayoutError>)
    ensures Prepend([], r) == r
  {
    if r.Success? {
      assert [] + r.value.slices == r.value.slices;
    }
  }

  /**
   * Claim a slice for every parameter in order, starting at `cursor`; the
   * first failing claim fails the whole layout.
   */
  function LayoutFrom(region: Region, cursor: nat, params: seq<Parameter>): (r: Result<Layout, LayoutError>)
    requires region.Valid() && region.start <= cursor
    ensures r.Success? ==> |r.value.slices| == |params|
    ensures r.Success? ==> cursor + TotalDemand(params) <= r.value.cursor <= cursor + TotalDemand(params) + MaxPadding(params)
    ensures r.Success? && params != [] ==> r.value.cursor <= region.End()
    ensures r == Failure(InvalidElementCount) ==> !CountsValid(params)
    decreases |params|
  {
    if params == [] then
      Success(Layout([], cursor))
    else
      match Claim(region, cursor, params[0].kind, params[0].count)
      case Failure(e) => Failure(e)
      case Success(c) =>
        var rest := LayoutFrom(region, c.cursor, params[1..]);
        if rest.Failure? then
          assert !CountsValid(params[1..]) ==> !CountsValid(params) by {
            if !CountsValid(params[1..]) {
              var i :| 0 <= i < |params[1..]| && params[1..][i].count < 1;
              assert params[i + 1].count < 1;
            }
          }
          rest
        else
          Prepend([c.slice], rest)
  }

  /** A successful layout places every parameter in the buffer, aligned,
      in order and without overlap, and leaves the cursor past every slice. */
  lemma {:induction false} LayoutFromWellPlaced(region: Region, cursor: nat, params: seq<Parameter>)
    requires region.Valid() && region.start <= cursor
    requires LayoutFrom(region, cursor, params).Success?
    ensures WellPlaced(region, cursor, params, LayoutFrom(region, cursor, params).value.slices)
    ensures var l := LayoutFrom(region, cursor, params).value;
      forall i :: 0 <= i < |l.slices| ==> l.slices[i].End() <= l.cursor
    decreases |params|
  {
    if params != [] {
      LayoutFromStep(region, cursor, params);
      var c := Claim(region, cursor, params[0].kind, params[0].count).value;
      LayoutFromWellPlaced(region, c.cursor, params[1..]);
      var rest := LayoutFrom(region, c.cursor, params[1..]).value;
      PrependPlaced(region, cursor, params[0], c.slice, c.cursor, params[1..], rest.slices);
      assert [params[0]] + params[1..] == params;
      var all := [c.slice] + rest.slices;
      forall i | 0 <= i < |all| ensures all[i].End() <= rest.cursor {
        if i > 0 {
          assert all[i] == rest.slices[i - 1];
        }
      }
    }
  }

  /** A slice placed before the cursor of a well-placed tail extends it. */
  lemma PrependPlaced(region: Region, cursor: nat, p: Parameter, s: Slice,
                      next: nat, params: seq<Parameter>, slices: seq<Slice>)
    requires PlacedFor(region, cursor, p, s)
    requires s.End() <= next
    requires WellPlaced(region, next, params, slices)
    ensures WellPlaced(region, cursor, [p] + params, [s] + slices)
  {
    var ps := [p] + params;
    var ss := [s] + slices;
    forall i | 0 <= i < |ss|
      ensures PlacedFor(region, cursor, ps[i], ss[i])
    {
      if i > 0 {
        assert ps[i] == params[i - 1] && ss[i] == slices[i - 1];
      }
    }
    forall i, j | 0 <= i < j < |ss|
      ensures ss[i].End() <= ss[j].offset
    {
      assert ss[j] == slices[j - 1];
      if i > 0 {
        assert ss[i] == slices[i - 1];
      } else {
        assert PlacedFor(region, next, params[j - 1], slices[j - 1]);
      }
    }
  }

  /** One step of LayoutFrom: claim for the first parameter, then lay out the rest. */
  lemma LayoutFromStep(region: Region, cursor: nat, params: seq<Parameter>)
    requires region.Valid() && region.start <= cursor && params != []
    ensures var c := Claim(region, cursor, params[0].kind, params[0].count);
      LayoutFrom(region, cursor, params) ==
        if c.Failure? then Failure(c.error)
        else Prepend([c.value.slice], LayoutFrom(region, c.value.cursor, params[1..]))
  {
  }

  lemma PrependPrepend(a: seq<Slice>, b: seq<Slice>, r: Result<Layout, LayoutError>)
    ensures Prepend(a, Prepend(b, r)) == Prepend(a + b, r)
  {
    if r.Success? {
      assert a + (b + r.value.slices) == (a + b) + r.value.slices;
    }
  }

  /** The cursor loop: reset the cursor to the start of the scratch buffer and
      claim one slice per parameter, stopping at the first failure. */
  method LayoutProperties(region: Region, params: seq<Parameter>) returns (r: Result<Layout, LayoutError>)
    requires region.Valid()
    ensures r == LayoutFrom(region, region.start, params)
    ensures r.Success? ==> WellPlaced(region, region.start, params, r.value.slices)
    ensures r.Failure? && CountsValid(params) ==> r.error == ScratchSpaceExhausted
  {
    var slices: seq<Slice> := [];
    var cursor := region.start;
    var k := 0;
    assert params[k..] == params;
    PrependEmpty(LayoutFrom(region, cursor, params));
    while k < |params|
      invariant 0 <= k <= |params|
      invariant region.start <= cursor
      invariant LayoutFrom(region, region.start, params) == Prepend(slices, LayoutFrom(region, cursor, params[k..]))
    {
      var rest := params[k..];
      assert rest[0] == params[k] && rest[1..] == params[k + 1..];
      LayoutFromStep(region, cursor, rest);
      var c := Claim(region, cursor, params[k].kind, params[k].count);
      if c.Failure? {
        return Failure(c.error);
      }
      PrependPrepend(slices, [c.value.slice], LayoutFrom(region, c.value.cursor, params[k + 1..]));
      slices := slices + [c.value.slice];
      cursor := c.value.cursor;
      k := k + 1;
    }
    assert params[k..] == [] && slices + [] == slices;
    r := Success(Layout(slices, cursor));
    LayoutFromWellPlaced(region, region.start, params);
  }
}

=== FILE: scratch_space.dfy ===
/**
 * The scratch space carried inline in every UHoudiniAssetComponent and the
 * bump cursor that carves it into property storage.
 *
 * Each generated property is taken to claim an aligned slice of
 * `Count * sizeof(T)` bytes, `Count` counting whole elements of `T`, at the
 * cursor `Offset` (a byte offset from the start of the component, passed by reference to CreatePropertyInt, ...Float,
 * ...Toggle and ...Color), the property's RTTI offset is patched to the
 * slice's start, and the cursor moves past the slice. The host stores that
 * offset in a signed 32-bit field, and the slice must stay inside
 * `ScratchSpaceBuffer[HOUDINIENGINE_ASSET_SCRATCHSPACE_SIZE]`.
 */
module ScratchSpace {
  import opened Outcomes
  import opened Alignment

  /** HOUDINIENGINE_ASSET_SCRATCHSPACE_SIZE: the 64k scratch buffer. It is
      documentation only: every member is stated for a buffer of any capacity. */
  const ScratchSpaceSize: nat := 0x1_0000

  /** Largest offset a host property can carry (signed 32-bit). */
  const Int32Max: nat := 0x7FFF_FFFF

  /** The cursor is a `uint32`. */
  const UInt32Modulus: nat := 0x1_0000_0000

  /** The four property kinds generated from asset parameters. */
  datatype PropertyKind = Int | Float | Toggle | Color

  /** `sizeof` of one element: int32, float, bool, and a four-float linear colour. */
  function ElementSize(kind: PropertyKind): (n: nat)
    ensures n >= 1
  {
    match kind
    case Int => 4
    case Float => 4
    case Toggle => 1
    case Color => 16
  }

  /** `ALIGNOF` of one element. */
  function ElementAlign(kind: PropertyKind): (a: nat)
    ensures IsPowerOfTwo(a)
    ensures a <= ElementSize(kind)
  {
    match kind
    case Int => 4
    case Float => 4
    case Toggle => 1
    case Color => 4
  }

  /** One asset parameter to expose: its kind and element count (`int Count`). */
  datatype Parameter = Parameter(name: string, kind: PropertyKind, count: int)

  /** Bytes claimed for `count` elements of `kind`. */
  function SliceSize(kind: PropertyKind, count: nat): nat
  {
    count * ElementSize(kind)
  }

  /** A claimed piece of storage: its offset from the start of the component
      (the value patched into the property) and its length in bytes. */
  datatype Slice = Slice(offset: nat, size: nat) {
    function End(): nat { offset + size }
  }

  /**
   * Where the scratch buffer lives: `base` is the component's own address
   * (`this`), `start` the offset of ScratchSpaceBuffer from `this`, and
   * `capacity` the buffer's length.
   */
  datatype Region = Region(base: nat, start: nat, capacity: nat) {
    function End(): nat { start + capacity }

    /** Every offset into the buffer fits the host's signed 32-bit offset. */
    predicate Valid() { End() <= Int32Max + 1 }

    /** The slice lies wholly inside the buffer. */
    predicate Holds(s: Slice) { start <= s.offset && s.End() <= End() }
  }

  datatype LayoutError = InvalidElementCount | ScratchSpaceExhausted

  /** A claimed slice and the cursor handed back through `uint32& Offset`. */
  datatype Claimed = Claimed(slice: Slice, cursor: nat)

  /** `count` elements of `kind` could be stored at offset `o`: not before
      the cursor, at an aligned address, and inside the buffer. */
  predicate CanPlace(region: Region, cursor: nat, kind: PropertyKind, count: nat, o: nat)
  {
    && cursor <= o
    && IsAligned(region.base + o, ElementAlign(kind))
    && o + SliceSize(kind, count) <= region.End()
  }

  /** The first slot ComputeOffsetAlignmentBoundary offers at the cursor,
      as an offset from the component. */
  function BoundaryOffset(region: Region, cursor: nat, kind: PropertyKind): (o: nat)
    ensures IsAligned(region.base + o, ElementAlign(kind))
    ensures cursor <= o && o - cursor < ElementAlign(kind)
  {
    AlignUp(region.base + cursor, ElementAlign(kind)) - region.base
  }

  /** No slot before the boundary can take the slice. */
  lemma BoundaryIsFirstFit(region: Region, cursor: nat, kind: PropertyKind, count: nat, o: nat)
    requires CanPlace(region, cursor, kind, count, o)
    ensures BoundaryOffset(region, cursor, kind) <= o
  {
    AlignUpIsLeast(region.base + cursor, ElementAlign(kind), region.base + o);
  }

  /**
   * One CreateProperty* call: claim an aligned slice for `count` elements
   * of `kind` at the cursor and return it with the advanced cursor, or fail
   * instead of writing past the buffer.
   */
  function Claim(region: Region, cursor: nat, kind: PropertyKind, count: int): (r: Result<Claimed, LayoutError>)
    requires region.Valid() && region.start <= cursor
    ensures count < 1 ==> r == Failure(InvalidElementCount)
    ensures r.Success? ==>
      && count >= 1
      && region.Holds(r.value.slice)
      && r.value.slice.size == SliceSize(kind, count)
      && CanPlace(region, cursor, kind, count, r.value.slice.offset)
      && r.value.slice.offset - cursor < ElementAlign(kind)
      && r.value.slice.offset <= Int32Max
      && r.value.cursor == r.value.slice.End()
      && r.value.cursor <= Int32Max + 1 < UInt32Modulus
    ensures r.Success? ==> forall o :: CanPlace(region, cursor, kind, count, o) ==> r.value.slice.offset <= o
    ensures count >= 1 && r.Failure? ==>
      && r.error == ScratchSpaceExhausted
      && forall o :: !CanPlace(region, cursor, kind, count, o)
  {
    if count < 1 then
      Failure(InvalidElementCount)
    else
      var offset := BoundaryOffset(region, cursor, kind);
      var size := SliceSize(kind, count);
      assert forall o | CanPlace(region, cursor, kind, count, o) :: offset <= o by {
        forall o | CanPlace(region, cursor, kind, count, o) ensures offset <= o {
          BoundaryIsFirstFit(region, cursor, kind, count, o);
        }
      }
      if offset + size <= region.End() then
        Success(Claimed(Slice(offset, size), offset + size))
      else
        Failure(ScratchSpaceExhausted)
  }
}
